=== FILE: README.md ===
# Meeting-coach dashboards: live metrics, report reshaping, report metrics

This project models the computational core of a speech-coaching dashboard.
The core has three parts:

- **The live meeting panel** (`app/page.tsx`). A sampler walks six bounded
  readings every tick: speed, clarity, pitch variation, volume, sentence
  complexity and posture. It also decrements filler-word counters, never below
  zero. After each change, a chart effect appends the speed and the clarity to
  two rolling windows of ten points. Both points carry the same capture time.
  A separate interval shows a coaching message picked at random from a fixed
  corpus, and a timeout hides it again.
- **The uploaded-video view** (`components/presentation-uploader.tsx`). It
  zips a report's parallel time-series arrays into chart records. It holds the
  upload state (`file`, `loading`, `results`), driven by the analyze button and
  by the settling of the request. It also capitalises the tab labels.
- **The analysis backend's report assembly** (`app.py`). It builds one speech
  segment and one entry of each of five parallel arrays per transcribed
  segment. It then computes four summary metrics: clarity, pace, vocabulary and
  enthusiasm.

Modules follow that structure:

- `Common` holds the optional value, clamp, JavaScript's `Math.round`, sums and means.
- `LiveMetrics` is the sampler step.
- `RollingWindow` is `[...w, p].slice(-10)`.
- `LiveSession` holds the metric slice of the panel's state: mount, tick, the chart effect and the sampler's cleanup.
- `Notifications` is the raise/hide scheduler.
- `Analysis` is `analyze_presentation` and `_calculate_metrics`.
- `Uploader` is the reshaping, `chartData`, the upload state and the tab labels.

Nondeterminism and foreign calls are parameters:

- Every `Math.random()` call is an explicit draw `r` with `0 <= r < 1`. A
  sampler tick takes one draw per field and one per filler word, in source
  order.
- `new Date().getTime()` is an integer parameter of each tick.
- Timers are discrete events. `Sample` stands for the sampler interval, and
  `Teardown` for its cleanup. `Raise` stands for the notification interval.
  `HideFires` stands for a pending hide timeout. `Unmount` is the notification
  effect's cleanup.
- Whisper transcription, BART summarisation and librosa feature extraction are
  inputs. A segment arrives with its words, start, end, optional confidence and
  audio features. An exception from Whisper or BART arrives as
  `Raised(message)`. Feature extraction catches its own exceptions and
  returns zero features (app.py:64-71), so its failures arrive as ordinary
  feature values.
- The HTTP request is an `Outcome`: a response body or a rejection.

Numbers are Dafny `real`s.

Three behaviours of the code are worth knowing:

- **Teardown does not cancel the hide timeout.** The cleanups clear the
  sampler interval (app/page.tsx:63) and the raise interval
  (app/page.tsx:79). The hide timeout started at app/page.tsx:76 is not
  cleared, so a hide pending at unmount still fires afterwards
  (`Notifications.HideFiresAfterUnmount`). Its state update targets an
  unmounted component, which React discards, so nothing visible changes.
  The sampler half of teardown is complete: after it, the snapshot and both
  chart windows never change again (`LiveSession.FrozenAfterUnmount`).
- **A backend model error replaces the previous report.**
  `analyze_presentation` catches model exceptions and returns `{'error': ...}`
  (app.py:130-131). The route sends that with a success status
  (app.py:201). The client therefore stores it as `results`, replacing any
  earlier report, and charts nothing
  (`Uploader.BackendErrorReplacesReport`). Only a rejected request keeps the
  previous results.
- **The charts start with one point.** The chart effect also runs once on
  mount, so the windows start with one point for the initial snapshot
  (`LiveSession.Mount`).

## Model

| member | source | states |
|---|---|---|
| Common.Clamp | app/page.tsx:50-59 | `min(max(x, lo), hi)` is at most `hi`. For `lo <= hi` it is at least `lo`. It equals `x` when `x` is already in range and the violated bound otherwise. |
| Common.ClampNonExpansive | app/page.tsx:50-59 | Clamping to a well-formed range never increases the distance between two values. |
| Common.Round | components/presentation-uploader.tsx:42 | `Math.round(t)` is the integer `n` with `t - 1/2 < n <= t + 1/2`: the nearest integer, with ties going up. |
| Common.RoundIsUnique | components/presentation-uploader.tsx:42 | Only one integer meets that bound, so the bound characterises `Math.round`. |
| Common.RoundOfIntegral | components/presentation-uploader.tsx:42 | A whole-number timestamp is unchanged by rounding. |
| Common.Mean | app.py:137 | The guarded mean is 0.0 on an empty list. On a non-empty list, the mean times the length is the sum. |
| Common.MeanWithin | app.py:137 | The mean of a non-empty list lies between any common lower and upper bound of its elements. |
| Common.MeanNonNegative | app.py:148 | The mean of non-negative values is non-negative, including the empty case. |
| LiveMetrics.Initial | app/page.tsx:18-30 | The mount snapshot has every reading in range and every filler count non-negative, with three filler words. |
| LiveMetrics.Walk | app/page.tsx:50-59 | The reading moves to `x + (r - 1/2) * step` when that is in range. Otherwise it stops at the violated bound. So it always lands in range, and from an in-range value it moves by at most half the step. |
| LiveMetrics.FillerDelta | app/page.tsx:54 | For `0 <= r < 1`, `floor((r - 0.5) * 2)` is -1 or 0. It is -1 exactly when `r < 1/2`. |
| LiveMetrics.StepFiller | app/page.tsx:52-55 | One counter step keeps the word and never goes negative. A positive count drops by one exactly when `r < 1/2` and stays otherwise. A non-positive count becomes 0. |
| LiveMetrics.StepFillers | app/page.tsx:52-55 | The map over the filler list keeps its length, order and words. Every counter is stepped with its own draw. |
| LiveMetrics.Step | app/page.tsx:46-64 | After any tick every reading is in range and every count is non-negative, even if the previous snapshot was not valid. Filler words keep length, order and text. From an in-range snapshot, speed moves at most 5 and every other reading at most 2.5. Each reading is walked with its own draw and its field's bounds and step. |
| LiveMetrics.RunStaysValid | app/page.tsx:46-64 | Over any number of ticks from a valid snapshot, the snapshot stays valid. No filler counter ever exceeds its starting value, except to reach zero from a negative one. |
| LiveMetrics.RunDrift | app/page.tsx:50-59 | After `k` ticks from an in-range snapshot, speed has drifted at most `5k` and every other reading at most `2.5k`. |
| LiveMetrics.SpeedBarWidth | app/page.tsx:217 | An in-range speed gives a bar width in [0, 100]. The width maps back to the speed as `80 + 0.8 w`. |
| LiveMetrics.SpeedBarMonotone | app/page.tsx:217 | A higher speed never gives a narrower bar. |
| RollingWindow.TakeLast | app/page.tsx:68-69 | For a positive `n`, `slice(-n)` keeps `min(len, n)` elements, and they are a suffix of the input. The page only uses `n = 10`. |
| RollingWindow.Append | app/page.tsx:68-69 | Appending gives length `min(len + 1, 10)` and ends with the new point. The points before it are the newest points of the old window, in order. Below capacity the result is `w + [p]`. |
| RollingWindow.AppendPositions | app/page.tsx:68-69 | Every point of the new window is the appended one or an old point, and its position is shifted by the number evicted. |
| RollingWindow.TakeLastAbsorbs | app/page.tsx:68-69 | Trimming before appending more, then trimming again, equals trimming once at the end. |
| RollingWindow.AppendAllKeepsLatest | app/page.tsx:66-70 | After any sequence of appends, a window holds exactly the last ten points of its history, in insertion order. |
| RollingWindow.FifteenAppends | app/page.tsx:66-70 | Fifteen appends to an empty window leave the last ten points, in order. |
| LiveSession.Capture | app/page.tsx:66-70 | The chart effect appends the current speed and clarity to their windows at the same capture time, as the window append does. Both windows hold at most ten points. |
| LiveSession.CaptureKeepsHistory | app/page.tsx:68-69 | Each window grows by one point until it holds ten. The points before the new one are the newest points of the old window, in order. |
| LiveSession.Mount | app/page.tsx:18-70 | After mount the state satisfies the panel invariant, with one point in each window for the initial snapshot. |
| LiveSession.Tick | app/page.tsx:46-70 | While the sampler runs, a tick replaces the snapshot with one sampler step, which is valid and keeps the number of filler words. It then appends the new speed and clarity at the tick's capture time to their windows. Once the interval is cleared, a tick changes nothing. |
| LiveSession.Unmount | app/page.tsx:63 | The cleanup stops the sampler and changes nothing else. |
| LiveSession.Apply | app/page.tsx:46-70 | A sample is one tick with its draws and capture time, and a teardown is the cleanup. |
| LiveSession.TickKeepsInv | app/page.tsx:46-70 | A tick keeps the invariant. The snapshot is valid. Both windows hold 1 to 10 points and agree on capture time at every index. Every charted value is in range, and the newest points show the current snapshot. |
| LiveSession.ReplayKeepsInv | app/page.tsx:46-70 | The invariant holds after any sequence of ticks and teardowns. |
| LiveSession.FrozenAfterUnmount | app/page.tsx:46-63 | Once the sampler interval is cleared, no sequence of inputs changes the session. |
| LiveSession.TeardownFreezes | app/page.tsx:46-70 | Whatever follows a teardown, the snapshot and both chart windows stay as they were at teardown. |
| LiveSession.TickKeepsChronological | app/page.tsx:66-70 | If the clock has not gone backwards, both windows stay in non-decreasing capture-time order. |
| LiveSession.AppendKeepsChronological | app/page.tsx:68-69 | Appending a point no older than the newest one keeps a window in time order. |
| Notifications.PickIndex | app/page.tsx:75 | `floor(r * n)` for `0 <= r < 1` and `n > 0` is a valid index. It is the `i` with `i <= r n < i + 1`, so the message shown is always a corpus entry. |
| Notifications.PickIndexReachesEvery | app/page.tsx:36-44 | Every corpus entry is picked by some draw. |
| Notifications.Apply | app/page.tsx:72-80 | While the interval runs, a raise shows `corpus[floor(r * 7)]` and schedules one hide. A pending hide clears visibility and keeps the message text. Unmount stops only the interval. A raise after unmount and a hide with none pending do nothing. |
| Notifications.ReplayKeepsInv | app/page.tsx:72-80 | Every sequence of events keeps this: a visible notification shows a corpus message and has a hide pending. |
| Notifications.ShownMessageIsFromCorpus | app/page.tsx:36-80 | From mount, under any interleaving of raises, hides and unmount, a visible message is a corpus entry that is due to be hidden. |
| Notifications.NoRaiseAfterUnmount | app/page.tsx:79 | After unmount the message text never changes, the interval stays stopped and pending hides only decrease. |
| Notifications.HideFiresAfterUnmount | app/page.tsx:76-79 | After a raise and an unmount, the interval is stopped but a hide timeout is still scheduled, and it still fires. |
| Analysis.AssembleSegments | app.py:86-118 | The loop builds segment `i` from input segment `i`. All five arrays have one entry per segment. Entry `i` of each array is segment `i`'s start, pitch, energy, speaking rate and confidence. The confidence is the given one, else 0.8. |
| Analysis.BuiltFromIsUnique | app.py:104-112 | The loop's segment postcondition determines the segment list: two lists built from the same inputs are equal. |
| Analysis.DescribesIsUnique | app.py:113-118 | Index correspondence with the segments determines the five arrays completely. |
| Analysis.ToSpeechSegment | app.py:104-110 | A segment keeps the input's text, times and audio features. Its confidence is the given one, or 0.8 when none is given. |
| Analysis.LowerChar | app.py:151 | Lower-casing a character leaves no upper-case ASCII letter. An upper-case letter moves 32 code points to its lower-case partner, and any other character is kept. |
| Analysis.Lower | app.py:151 | `.lower()` keeps a word's length and leaves no upper-case ASCII letter. Each capital becomes its lower-case partner, 32 code points up, and every other character stays in place. |
| Analysis.AllWords | app.py:151 | The words of the joined text are exactly the words of the segments. Every word of every segment is among them, and each of them is some segment's word. |
| Analysis.TotalWords | app.py:152 | Summing per-segment word counts equals counting the words of the joined text. |
| Analysis.DistinctWords | app.py:151-152 | The number of distinct lower-cased words is the size of the set, and never more than the total word count. |
| Analysis.Ratio | app.py:153 | `d / t` for positive `t` is the non-negative `v` with `v * t == d`. It is at most 1 when `d <= t`. |
| Analysis.DistinctLower | app.py:151 | The set of lower-cased words contains each word's lower-cased form and nothing else. It is no larger than the word list. |
| Analysis.Wpm | app.py:140-147 | A segment's words per minute is non-negative. It is defined for every segment because the duration is floored at 0.1 s. |
| Analysis.VocabularyScore | app.py:151-153 | With words present, the score times the total word count is the number of distinct lower-cased words. It lies in [0, 1], and is 0.0 when there are no words. |
| Analysis.EnthusiasmScore | app.py:156-165 | The three guarded feature means weigh equally, so the score times three is their sum. |
| Analysis.CalculateMetrics | app.py:133-172 | With no segments every metric is 0.0. Otherwise clarity times the segment count is the sum of the confidences. It is in [0, 1] when every confidence is. Pace times the segment count is the sum of the per-segment wpm, and it is never negative. With words present, vocabulary times the total word count is the distinct-word count. Vocabulary is in [0, 1], and 0.0 with no words. Enthusiasm times three is the sum of the mean pitch, energy and speaking rate. |
| Analysis.ConfidencesAreProbabilities | app.py:108 | With the 0.8 fallback, every confidence of segments built from the inputs is a probability when every given one is. |
| Analysis.AnalyzePresentation | app.py:73-131 | A model exception gives an error response carrying its message, and only then. Otherwise the report passes the transcript and summary through and holds the assembled segments and aligned arrays. Its metrics are computed over those segments. |
| Uploader.At | components/presentation-uploader.tsx:43-46 | Reading `a[i]` gives a value exactly when `i` is in bounds, and it is `a[i]`. |
| Uploader.TransformTimeSeries | components/presentation-uploader.tsx:39-48 | There is one record per timestamp. Record `i` has the rounded timestamp and the entries at index `i` of the other arrays. An entry is absent past an array's end. |
| Uploader.Unzip | components/presentation-uploader.tsx:39-48 | Unzipping succeeds exactly when every record is complete, and then gives equal-length arrays. |
| Uploader.TransformCompleteIff | components/presentation-uploader.tsx:41-47 | Every record is complete exactly when the other arrays are at least as long as `timestamps`. |
| Uploader.TransformRoundTrip | components/presentation-uploader.tsx:39-48 | For equal-length arrays with whole-number timestamps, unzipping the records gives the arrays back. |
| Uploader.ChartData | components/presentation-uploader.tsx:51 | There are no records without results or for an error body. A report gives one record per timestamp. |
| Uploader.ChartShowsSegments | components/presentation-uploader.tsx:38-51 | Charting any report whose segments come from the inputs and whose arrays describe those segments shows segment `i`'s features, confidence and rounded start time at index `i`. `Analysis.AnalyzePresentation` guarantees both conditions. |
| Uploader.ButtonEnabled | components/presentation-uploader.tsx:66-68 | The button is disabled without a file or while loading. When it is enabled, a click sends exactly one request. |
| Uploader.HandleFileUpload | components/presentation-uploader.tsx:16-19 | Without a file nothing changes. Otherwise `loading` is set and one request is sent. The results are untouched. |
| Uploader.Settle | components/presentation-uploader.tsx:29-35 | After the request settles, `loading` is false. A response replaces the results, and a rejection keeps them. |
| Uploader.Next | components/presentation-uploader.tsx:16-68 | Choosing a file changes only the file. A click sends a request exactly when the button is enabled and leaves the file and the results alone. A completion settles the request in flight and clears `loading`. A completion with nothing in flight changes nothing. |
| Uploader.NextKeepsInv | components/presentation-uploader.tsx:66-69 | Every event keeps at most one request in flight, with `loading` exactly when one is. A click while loading does nothing. |
| Uploader.RunKeepsInv | components/presentation-uploader.tsx:16-69 | The in-flight invariant holds after any sequence of file choices, clicks and completions. |
| Uploader.AtMostOneRequest | components/presentation-uploader.tsx:66-69 | From a fresh component, no sequence of events has two analysis requests outstanding. |
| Uploader.SettleIsResubmittable | components/presentation-uploader.tsx:30-35 | After the outstanding request settles, the button is enabled exactly when a file is chosen. A failure leaves the results untouched. |
| Uploader.BackendErrorReplacesReport | components/presentation-uploader.tsx:30 | A successful error body replaces the stored results and charts nothing. |
| Uploader.UpperChar | components/presentation-uploader.tsx:89 | `toUpperCase` on one character leaves no lower-case ASCII letter. A lower-case letter moves 32 code points to its upper-case partner, and any other character is kept. |
| Uploader.Capitalize | components/presentation-uploader.tsx:89 | Capitalising keeps the length, upper-cases only the first ASCII character and keeps the rest. |
| Uploader.CapitalizeIdempotent | components/presentation-uploader.tsx:89 | Capitalising twice equals capitalising once. |
| Uploader.TabLabels | components/presentation-uploader.tsx:79-89 | The three tabs are labelled Metrics, Transcription and Charts. |

## Left out

- Wall-clock timing is not modelled. The 2000 ms sampler interval, the 3000 ms raise interval and the 2000 ms hide timeout become events in any order. The model therefore admits orders the real timers never produce, such as two raises before a hide. Every property above holds for all orders.
- `Math.random` and `Date.getTime` are parameters. No random generator and no clock is modelled.
- IEEE-754 arithmetic is not modelled: readings are exact reals. `toFixed` display formatting and the NaN-to-0.0 fallback of feature extraction (app.py:59-60) are left out.
- Whisper, BART summarisation, torch device selection and librosa feature extraction (app.py:27-71, 77-83) are foreign libraries. Their results, including the zero-feature fallback on a librosa exception, are inputs.
- Segment text is modelled as its list of whitespace-separated words. Python's `str.split` is not modelled. `str.lower` and `toUpperCase` are modelled on ASCII letters only.
- The HTTP transport is not modelled: axios, FormData, the Flask route and its 400/500 answers, temporary files, CORS and the Socket.IO handlers (app.py:174-225). The request is an `Outcome`.
- The Next.js proxy rewrite and the backend address default are not modelled (next.config.ts, components/presentation-uploader.tsx:14).
- Pure presentation is not modelled: the meeting-summary page, the Recharts wrapper, the dark-mode and collapsible toggles, and the active-tab state.
- Uploader.ChartData: for a report it states only the record count. The record contents are stated by `Uploader.TransformTimeSeries`.

=== FILE: analysis.dfy ===
/**
 The report the analysis backend builds (app.py): one speech segment and one
 entry in each of five parallel time-series arrays per transcribed segment,
 and four summary metrics over the segments. Transcription, summarisation and
 audio-feature extraction are foreign libraries; their outputs are inputs
 here. A segment's text is its list of whitespace-separated words.
 */
module Analysis {
  import opened Common

  /** Per-segment audio features, as returned by feature extraction. */
  datatype AudioFeatures = AudioFeatures(pitchAvg: real, pitchVariance: real, energy: real, speakingRate: real)

  /** A transcribed segment; `confidence` is absent when the transcriber
      gives none. */
  datatype SegmentInput = SegmentInput(
    words: seq<string>, start: real, end: real, confidence: Option<real>, features: AudioFeatures)

  /** The `SpeechSegment` record. */
  datatype SpeechSegment = SpeechSegment(
    words: seq<string>, startTime: real, endTime: real, confidence: real,
    pitchAvg: real, pitchVariance: real, energy: real, speakingRate: real)

  /** The `time_series_data` parallel arrays. */
  datatype TimeSeries = TimeSeries(
    timestamps: seq<real>, pitch: seq<real>, energy: seq<real>, speakingRate: seq<real>, confidence: seq<real>)

  datatype Metrics = Metrics(overallClarity: real, averagePaceWpm: real, vocabularyScore: real, enthusiasmScore: real)

  datatype Report = Report(
    segments: seq<SpeechSegment>, timeSeries: TimeSeries, fullTranscription: string, summary: string, metrics: Metrics)

  /** What the foreign models produced: a transcript, its summary and its
      segments, or the message of the exception one of them raised. */
  datatype ModelOutput =
    | Transcribed(transcription: string, summary: string, segments: seq<SegmentInput>)
    | Raised(message: string)

  /** The backend's JSON answer: a report, or `{'error': message}`. */
  datatype Response = Analyzed(report: Report) | Error(message: string)

  /** The confidence used when a segment carries none. */
  const DefaultConfidence := 0.8

  /** The `SpeechSegment` built from one transcribed segment: text, times
      and audio features are carried over, and a missing confidence becomes
      0.8. */
  function ToSpeechSegment(x: SegmentInput): (seg: SpeechSegment)
    ensures seg.words == x.words && seg.startTime == x.start && seg.endTime == x.end
    ensures x.confidence.Some? ==> seg.confidence == x.confidence.value
    ensures x.confidence.None? ==> seg.confidence == DefaultConfidence
    ensures seg.pitchAvg == x.features.pitchAvg && seg.pitchVariance == x.features.pitchVariance
    ensures seg.energy == x.features.energy && seg.speakingRate == x.features.speakingRate
  {
    SpeechSegment(
      x.words, x.start, x.end, x.confidence.GetOr(DefaultConfidence),
      x.features.pitchAvg, x.features.pitchVariance, x.features.energy, x.features.speakingRate)
  }

  /** All five arrays have `n` entries. */
  predicate Aligned(ts: TimeSeries, n: nat)
  {
    && |ts.timestamps| == n && |ts.pitch| == n && |ts.energy| == n
    && |ts.speakingRate| == n && |ts.confidence| == n
  }

  /** Index correspondence between the time series and the segments of one
      report: entry `i` of every array describes segment `i`. */
  predicate Describes(ts: TimeSeries, segs: seq<SpeechSegment>)
  {
    && Aligned(ts, |segs|)
    && forall i :: 0 <= i < |segs| ==>
      && ts.timestamps[i] == segs[i].startTime
      && ts.pitch[i] == segs[i].pitchAvg
      && ts.energy[i] == segs[i].energy
      && ts.speakingRate[i] == segs[i].speakingRate
      && ts.confidence[i] == segs[i].confidence
  }

  /** Segment `i` was built from input `i`. */
  predicate BuiltFrom(segs: seq<SpeechSegment>, xs: seq<SegmentInput>)
  {
    |segs| == |xs| && forall i :: 0 <= i < |xs| ==> segs[i] == ToSpeechSegment(xs[i])
  }

  /** The loop of `analyze_presentation`: each iteration appends one segment
      and one value to each of the five arrays. */
  method AssembleSegments(xs: seq<SegmentInput>) returns (segs: seq<SpeechSegment>, ts: TimeSeries)
    ensures BuiltFrom(segs, xs)
    ensures Describes(ts, segs)
    ensures forall i :: 0 <= i < |xs| ==>
      && ts.timestamps[i] == xs[i].start
      && ts.pitch[i] == xs[i].features.pitchAvg
      && ts.confidence[i] == (if xs[i].confidence.Some? then xs[i].confidence.value else DefaultConfidence)
  {
    segs := [];
    ts := TimeSeries([], [], [], [], []);
    var i := 0;
    while i < |xs|
      invariant 0 <= i <= |xs|
      invariant BuiltFrom(segs, xs[..i])
      invariant Describes(ts, segs)
    {
      var x := xs[i];
      var seg := ToSpeechSegment(x);
      segs := segs + [seg];
      ts := TimeSeries(
        ts.timestamps + [x.start],
        ts.pitch + [x.features.pitchAvg],
        ts.energy + [x.features.energy],
        ts.speakingRate + [x.features.speakingRate],
        ts.confidence + [x.confidence.GetOr(DefaultConfidence)]);
      i := i + 1;
    }
    assert xs[..i] == xs;
  }

  /** The loop's postcondition determines its segments: two segment lists
      built from the same inputs are equal. */
  lemma BuiltFromIsUnique(a: seq<SpeechSegment>, b: seq<SpeechSegment>, xs: seq<SegmentInput>)
    requires BuiltFrom(a, xs) && BuiltFrom(b, xs)
    ensures a == b
  {
  }

  /** `Describes` fixes the time series completely: two series describing
      the same segments are equal. */
  lemma DescribesIsUnique(a: TimeSeries, b: TimeSeries, segs: seq<SpeechSegment>)
    requires Describes(a, segs) && Describes(b, segs)
    ensures a == b
  {
    assert a.timestamps == b.timestamps;
    assert a.pitch == b.pitch;
    assert a.energy == b.energy;
    assert a.speakingRate == b.speakingRate;
    assert a.confidence == b.confidence;
  }

  /** Python's `str.lower` on one ASCII character: an upper-case letter
      becomes its lower-case partner, 32 code points up; every other
      character is kept. */
  function LowerChar(c: char): (l: char)
    ensures !('A' <= l <= 'Z')
    ensures 'A' <= c <= 'Z' ==> l as int == c as int + 32 && 'a' <= l <= 'z'
    ensures !('A' <= c <= 'Z') ==> l == c
  {
    if 'A' <= c <= 'Z' then (c as int + 32) as char else c
  }

  /** `str.lower` on a word: same length, no upper-case letter left, every
      capital replaced by its lower-case partner and every other character
      kept in place. */
  function Lower(w: string): (l: string)
    ensures |l| == |w|
    ensures forall i :: 0 <= i < |l| ==> !('A' <= l[i] <= 'Z')
    ensures forall i :: 0 <= i < |w| && 'A' <= w[i] <= 'Z' ==> l[i] as int == w[i] as int + 32
    ensures forall i :: 0 <= i < |w| && !('A' <= w[i] <= 'Z') ==> l[i] == w[i]
  {
    seq(|w|, i requires 0 <= i < |w| => LowerChar(w[i]))
  }

  /** `w` is word `j` of segment `i` for some `i` and `j`. */
  predicate IsSegWord(segs: seq<SpeechSegment>, w: string)
  {
    exists i, j :: 0 <= i < |segs| && 0 <= j < |segs[i].words| && segs[i].words[j] == w
  }

  /** The words of all segments, in order: `' '.join(texts).split()`. Every
      word of every segment is among them, and nothing else is. */
  function AllWords(segs: seq<SpeechSegment>): (ws: seq<string>)
    ensures forall i, j :: 0 <= i < |segs| && 0 <= j < |segs[i].words| ==> segs[i].words[j] in ws
    ensures forall k :: 0 <= k < |ws| ==> IsSegWord(segs, ws[k])
  {
    if |segs| == 0 then []
    else
      var rest := AllWords(segs[1..]);
      assert forall i, j :: 1 <= i < |segs| && 0 <= j < |segs[i].words| ==> segs[i].words[j] in rest by {
        forall i, j | 1 <= i < |segs| && 0 <= j < |segs[i].words| ensures segs[i].words[j] in rest {
          assert segs[i] == segs[1..][i - 1];
        }
      }
      var ws := segs[0].words + rest;
      assert forall k :: 0 <= k < |ws| ==> IsSegWord(segs, ws[k]) by {
        forall k | 0 <= k < |ws| ensures IsSegWord(segs, ws[k]) {
          if k < |segs[0].words| {
            assert segs[0].words[k] == ws[k];
          } else {
            assert IsSegWord(segs[1..], rest[k - |segs[0].words|]);
            var i, j :| 0 <= i < |segs[1..]| && 0 <= j < |segs[1..][i].words| && segs[1..][i].words[j] == ws[k];
            assert segs[i + 1].words[j] == ws[k];
          }
        }
      }
      ws
  }

  /** `sum(len(seg.text.split()) for seg in segments)`: counting the words
      per segment gives the number of words of the joined text. */
  function TotalWords(segs: seq<SpeechSegment>): (n: nat)
    ensures n == |AllWords(segs)|
  {
    if |segs| == 0 then 0 else |segs[0].words| + TotalWords(segs[1..])
  }

  /** `len(set(...))`: the number of distinct lower-cased words, never more
      than the total. */
  function DistinctWords(segs: seq<SpeechSegment>): (n: nat)
    ensures n == |DistinctLower(AllWords(segs))|
    ensures n <= TotalWords(segs)
  {
    |DistinctLower(AllWords(segs))|
  }

  /** `v` is `d / t`: scaled by the positive `t` it gives `d` back. */
  predicate IsRatio(v: real, d: nat, t: nat)
  {
    t > 0 && v * t as real == d as real
  }

  /** `d / t` for a positive `t`: the real `v` with `v * t == d`, in `[0, 1]`
      when `d <= t`. */
  function Ratio(d: nat, t: nat): (v: real)
    requires t > 0
    ensures IsRatio(v, d, t)
    ensures 0.0 <= v
    ensures d <= t ==> v <= 1.0
  {
    var v := d as real / t as real;
    assert v * t as real == d as real;
    assert d <= t ==> v <= 1.0 by {
      if d <= t {
        ScaleCancels(v, 1.0, t as real);
      }
    }
    v
  }

  /** The distinct lower-cased words of a list: contains the lower-cased
      form of each word and has no more elements than the list. */
  function DistinctLower(ws: seq<string>): (u: set<string>)
    ensures |u| <= |ws|
    ensures forall i :: 0 <= i < |ws| ==> Lower(ws[i]) in u
    ensures forall w :: w in u ==> exists i :: 0 <= i < |ws| && w == Lower(ws[i])
  {
    if |ws| == 0 then {}
    else
      var rest := DistinctLower(ws[1..]);
      assert forall w :: w in rest ==> exists i :: 0 <= i < |ws| && w == Lower(ws[i]) by {
        forall w | w in rest ensures exists i :: 0 <= i < |ws| && w == Lower(ws[i]) {
          var j :| 0 <= j < |ws[1..]| && w == Lower(ws[1..][j]);
          assert w == Lower(ws[j + 1]);
        }
      }
      assert forall i :: 1 <= i < |ws| ==> Lower(ws[i]) in rest by {
        forall i | 1 <= i < |ws| ensures Lower(ws[i]) in rest {
          assert ws[i] == ws[1..][i - 1];
        }
      }
      {Lower(ws[0])} + rest
  }

  function ConfidenceScores(segs: seq<SpeechSegment>): seq<real>
  {
    seq(|segs|, i requires 0 <= i < |segs| => segs[i].confidence)
  }

  /** Words per minute of one segment; the duration is floored at 0.1 s so
      the division is always defined. */
  function Wpm(seg: SpeechSegment): (w: real)
    ensures 0.0 <= w
    ensures w * Max(seg.endTime - seg.startTime, 0.1) == |seg.words| as real * 60.0
  {
    var d := Max(seg.endTime - seg.startTime, 0.1);
    (|seg.words| as real / d) * 60.0
  }

  function WpmScores(segs: seq<SpeechSegment>): seq<real>
  {
    seq(|segs|, i requires 0 <= i < |segs| => Wpm(segs[i]))
  }

  /** Distinct lower-cased words over total words, `0.0` with no words: a
      ratio in `[0, 1]` that, times the total, gives the distinct count. */
  function VocabularyScore(segs: seq<SpeechSegment>): (v: real)
    ensures TotalWords(segs) == 0 ==> v == 0.0
    ensures TotalWords(segs) > 0 ==> IsRatio(v, DistinctWords(segs), TotalWords(segs))
    ensures 0.0 <= v <= 1.0
  {
    var d, t := DistinctWords(segs), TotalWords(segs);
    if t > 0 then
      var v := Ratio(d, t);
      v
    else 0.0
  }

  function Pitches(segs: seq<SpeechSegment>): seq<real>
  {
    seq(|segs|, i requires 0 <= i < |segs| => segs[i].pitchAvg)
  }

  function Energies(segs: seq<SpeechSegment>): seq<real>
  {
    seq(|segs|, i requires 0 <= i < |segs| => segs[i].energy)
  }

  function SpeakingRates(segs: seq<SpeechSegment>): seq<real>
  {
    seq(|segs|, i requires 0 <= i < |segs| => segs[i].speakingRate)
  }

  /** The mean of the three guarded per-feature means: they weigh equally,
      so the score is a third of their sum. */
  function EnthusiasmScore(segs: seq<SpeechSegment>): (e: real)
    ensures 3.0 * e == Mean(Pitches(segs)) + Mean(Energies(segs)) + Mean(SpeakingRates(segs))
  {
    var a, b, c := Mean(Pitches(segs)), Mean(Energies(segs)), Mean(SpeakingRates(segs));
    assert Sum([c]) == c;
    assert Sum([b, c]) == b + c by {
      assert [b, c][1..] == [c];
    }
    assert Sum([a, b, c]) == a + b + c by {
      assert [a, b, c][1..] == [b, c];
    }
    Mean([a, b, c])
  }

  /** `_calculate_metrics`. With no segments every score is `0.0`.
      Otherwise clarity is the mean confidence and the pace the mean of the
      per-segment wpm, each stated as mean times count equals sum; clarity
      is a probability when every confidence is one, and the pace is never
      negative. Vocabulary is distinct over total words, in `[0, 1]`
      (`0.0` with no words), and enthusiasm is a third of the sum of the
      mean pitch, energy and speaking rate. */
  function CalculateMetrics(segs: seq<SpeechSegment>): (m: Metrics)
    ensures |segs| == 0 ==> m == Metrics(0.0, 0.0, 0.0, 0.0)
    ensures |segs| > 0 ==> IsAverage(m.overallClarity, ConfidenceScores(segs))
    ensures (forall i :: 0 <= i < |segs| ==> 0.0 <= segs[i].confidence <= 1.0) ==>
      0.0 <= m.overallClarity <= 1.0
    ensures |segs| > 0 ==> IsAverage(m.averagePaceWpm, WpmScores(segs))
    ensures 0.0 <= m.averagePaceWpm
    ensures TotalWords(segs) > 0 ==> IsRatio(m.vocabularyScore, DistinctWords(segs), TotalWords(segs))
    ensures 0.0 <= m.vocabularyScore <= 1.0
    ensures TotalWords(segs) == 0 ==> m.vocabularyScore == 0.0
    ensures 3.0 * m.enthusiasmScore == Mean(Pitches(segs)) + Mean(Energies(segs)) + Mean(SpeakingRates(segs))
  {
    assert (forall i :: 0 <= i < |segs| ==> 0.0 <= segs[i].confidence <= 1.0) ==>
      0.0 <= Mean(ConfidenceScores(segs)) <= 1.0 by {
      if |segs| > 0 && forall i :: 0 <= i < |segs| ==> 0.0 <= segs[i].confidence <= 1.0 {
        MeanWithin(ConfidenceScores(segs), 0.0, 1.0);
      }
    }
    MeanNonNegative(WpmScores(segs));
    Metrics(Mean(ConfidenceScores(segs)), Mean(WpmScores(segs)), VocabularyScore(segs), EnthusiasmScore(segs))
  }

  /** A segment without a confidence falls back to 0.8, so when every input
      confidence is a probability, so is every confidence of the segments
      built from them. */
  lemma ConfidencesAreProbabilities(segs: seq<SpeechSegment>, xs: seq<SegmentInput>)
    requires BuiltFrom(segs, xs)
    requires forall i :: 0 <= i < |xs| ==>
      xs[i].confidence.Some? ==> 0.0 <= xs[i].confidence.value <= 1.0
    ensures forall i :: 0 <= i < |segs| ==> 0.0 <= segs[i].confidence <= 1.0
  {
  }

  /** `analyze_presentation`: an exception from any model becomes an error
      response; otherwise the segments are assembled by the loop and the
      metrics computed over them. */
  method AnalyzePresentation(out: ModelOutput) returns (resp: Response)
    ensures out.Raised? <==> resp.Error?
    ensures out.Raised? ==> resp.message == out.message
    ensures out.Transcribed? ==>
      && resp.report.fullTranscription == out.transcription
      && resp.report.summary == out.summary
      && BuiltFrom(resp.report.segments, out.segments)
      && Describes(resp.report.timeSeries, resp.report.segments)
      && resp.report.metrics == CalculateMetrics(resp.report.segments)
  {
    match out
    case Raised(msg) =>
      resp := Error(msg);
    case Transcribed(text, summary, xs) =>
      var segs, ts := AssembleSegments(xs);
      resp := Analyzed(Report(segs, ts, text, summary, CalculateMetrics(segs)));
  }
}

=== FILE: common.dfy ===
/**
 Shared vocabulary for the dashboard model: an optional value (JavaScript's
 `undefined`/`null` and Python's `dict.get` default), the clamp used by the
 metric sampler, JavaScript's `Math.round`, and the guarded sums and means
 used by the report metrics.
 */
module Common {

  /** A value that may be absent. */
  datatype Option<T> = None | Some(value: T) {

    /** The carried value, or `default` when there is none. */
    function GetOr(default: T): (r: T)
      ensures Some? ==> r == value
      ensures None? ==> r == default
    {
      match this
      case Some(v) => v
      case None => default
    }
  }

  function Min(a: real, b: real): real { if a <= b then a else b }

  function Max(a: real, b: real): real { if a >= b then a else b }

  function Abs(x: real): real { if x < 0.0 then -x else x }

  /** `Math.min(Math.max(x, lo), hi)`: for a well-formed range the result is
      in `[lo, hi]`, it is `x` itself when `x` already is, and it moves `x` to
      the violated end otherwise. */
  function Clamp(x: real, lo: real, hi: real): (r: real)
    ensures r <= hi
    ensures lo <= hi && x < lo ==> r == lo
    ensures x > hi ==> r == hi
    ensures lo <= hi ==> lo <= r
    ensures lo <= x <= hi ==> r == x
  {
    Min(Max(x, lo), hi)
  }

  /** Clamping to a well-formed range never moves two points further apart. */
  lemma ClampNonExpansive(x: real, y: real, lo: real, hi: real)
    requires lo <= hi
    ensures Abs(Clamp(x, lo, hi) - Clamp(y, lo, hi)) <= Abs(x - y)
  {
  }

  /** JavaScript's `Math.round`: the nearest integer, ties towards +infinity.
      The two bounds determine the result uniquely (see `RoundIsUnique`). */
  function Round(t: real): (n: int)
    ensures t - 0.5 < n as real <= t + 0.5
  {
    (t + 0.5).Floor
  }

  /** Exactly one integer lies in the half-open interval `(t - 1/2, t + 1/2]`,
      so `Round` is the only function meeting its contract. */
  lemma RoundIsUnique(t: real, m: int)
    requires t - 0.5 < m as real <= t + 0.5
    ensures m == Round(t)
  {
    var n := Round(t);
    assert (m - n) as real < 1.0 && (n - m) as real < 1.0;
  }

  /** An integral timestamp is left as it is by `Round`. */
  lemma RoundOfIntegral(t: real)
    requires t == t.Floor as real
    ensures Round(t) as real == t
  {
    RoundIsUnique(t, t.Floor);
  }

  /** The sum of a list of reals. */
  function Sum(xs: seq<real>): real
  {
    if |xs| == 0 then 0.0 else xs[0] + Sum(xs[1..])
  }

  /** `m` averages `xs`: scaled by the number of elements it gives their
      sum back. */
  predicate IsAverage(m: real, xs: seq<real>)
  {
    m * |xs| as real == Sum(xs)
  }

  /** The arithmetic mean, taken as `0.0` for an empty list: the
      `np.mean(xs) if xs else 0.0` guard of the report metrics. */
  function Mean(xs: seq<real>): (m: real)
    ensures |xs| == 0 ==> m == 0.0
    ensures |xs| > 0 ==> IsAverage(m, xs)
  {
    if |xs| == 0 then 0.0 else Sum(xs) / |xs| as real
  }

  lemma {:induction false} SumAtLeast(xs: seq<real>, lo: real)
    requires forall i :: 0 <= i < |xs| ==> lo <= xs[i]
    ensures |xs| as real * lo <= Sum(xs)
  {
    if |xs| > 0 {
      SumAtLeast(xs[1..], lo);
      assert |xs| as real * lo == (|xs| - 1) as real * lo + lo;
    }
  }

  lemma {:induction false} SumAtMost(xs: seq<real>, hi: real)
    requires forall i :: 0 <= i < |xs| ==> xs[i] <= hi
    ensures Sum(xs) <= |xs| as real * hi
  {
    if |xs| > 0 {
      SumAtMost(xs[1..], hi);
      assert |xs| as real * hi == (|xs| - 1) as real * hi + hi;
    }
  }

  /** The mean of a non-empty list lies between any common lower and upper
      bound of its elements. */
  lemma MeanWithin(xs: seq<real>, lo: real, hi: real)
    requires |xs| > 0
    requires forall i :: 0 <= i < |xs| ==> lo <= xs[i] <= hi
    ensures lo <= Mean(xs) <= hi
  {
    SumAtLeast(xs, lo);
    SumAtMost(xs, hi);
    var n := |xs| as real;
    ScaleCancels(lo, Mean(xs), n);
    ScaleCancels(Mean(xs), hi, n);
  }

  /** Dividing both sides of `a * n <= b * n` by a positive `n`. */
  lemma ScaleCancels(a: real, b: real, n: real)
    requires 0.0 < n && a * n <= b * n
    ensures a <= b
  {
    PositiveProduct(a - b, n);
    assert (a - b) * n == a * n - b * n;
  }

  lemma PositiveProduct(x: real, y: real)
    requires 0.0 < y
    ensures 0.0 < x ==> 0.0 < x * y
  {
  }

  /** The mean of non-negative numbers is non-negative (also when empty). */
  lemma MeanNonNegative(xs: seq<real>)
    requires forall i :: 0 <= i < |xs| ==> 0.0 <= xs[i]
    ensures 0.0 <= Mean(xs)
  {
    if |xs| > 0 {
      SumAtLeast(xs, 0.0);
      ScaleCancels(0.0, Mean(xs), |xs| as real);
    }
  }
}

=== FILE: live_metrics.dfy ===
/**
 The metric sampler of the live meeting panel (app/page.tsx): a snapshot of
 six bounded readings plus filler-word counters, advanced every tick by a
 clamped random walk. Each `Math.random()` call of the tick becomes an
 explicit draw `r` with `0 <= r < 1`, so one tick is a pure function of the
 previous snapshot and its draws.
 */
module LiveMetrics {
  import opened Common

  /** A counted filler word such as "um". */
  datatype FillerWord = FillerWord(word: string, count: int)

  /** The `aiAnalysis` state of the panel. */
  datatype Snapshot = Snapshot(
    speed: real,
    clarity: real,
    fillerWords: seq<FillerWord>,
    pitch: real,
    volume: real,
    sentenceComplexity: real,
    posture: real)

  /** The declared range of a bounded reading and the width of its walk step. */
  datatype FieldSpec = FieldSpec(lo: real, hi: real, step: real)

  const Speed := FieldSpec(80.0, 160.0, 10.0)
  const Clarity := FieldSpec(60.0, 100.0, 5.0)
  const Pitch := FieldSpec(40.0, 80.0, 5.0)
  const Volume := FieldSpec(50.0, 90.0, 5.0)
  const Complexity := FieldSpec(50.0, 80.0, 5.0)
  const Posture := FieldSpec(70.0, 100.0, 5.0)

  predicate WellFormed(f: FieldSpec) { f.lo <= f.hi && 0.0 <= f.step }

  predicate Within(x: real, f: FieldSpec) { f.lo <= x <= f.hi }

  /** Every bounded reading lies in its declared range. */
  predicate InRange(s: Snapshot)
  {
    && Within(s.speed, Speed)
    && Within(s.clarity, Clarity)
    && Within(s.pitch, Pitch)
    && Within(s.volume, Volume)
    && Within(s.sentenceComplexity, Complexity)
    && Within(s.posture, Posture)
  }

  predicate CountsNonNegative(fws: seq<FillerWord>)
  {
    forall i :: 0 <= i < |fws| ==> fws[i].count >= 0
  }

  /** The invariant every snapshot of the panel is meant to keep. */
  predicate Valid(s: Snapshot)
  {
    InRange(s) && CountsNonNegative(s.fillerWords)
  }

  /** A value `Math.random()` can return. */
  predicate IsDraw(r: real) { 0.0 <= r < 1.0 }

  /** The draws of one tick, one per `Math.random()` call of the update. */
  datatype Draws = Draws(
    speed: real,
    clarity: real,
    filler: seq<real>,
    pitch: real,
    volume: real,
    complexity: real,
    posture: real)

  /** `d` has one draw per filler word of a snapshot with `n` of them, and
      every draw is in `[0, 1)`. */
  predicate DrawsFor(d: Draws, n: nat)
  {
    && |d.filler| == n
    && IsDraw(d.speed) && IsDraw(d.clarity) && IsDraw(d.pitch)
    && IsDraw(d.volume) && IsDraw(d.complexity) && IsDraw(d.posture)
    && forall i :: 0 <= i < |d.filler| ==> IsDraw(d.filler[i])
  }

  /** The snapshot the panel mounts with. */
  function Initial(): (s: Snapshot)
    ensures Valid(s)
    ensures |s.fillerWords| == 3
  {
    Snapshot(
      120.0, 75.0,
      [FillerWord("um", 3), FillerWord("like", 2), FillerWord("you know", 1)],
      60.0, 70.0, 65.0, 85.0)
  }

  /** One random-walk step of a bounded reading: `clamp(x + (r - 0.5) * step)`.
      The result is in range whatever `x` was, and a reading already in range
      moves by at most half a step. */
  function Walk(x: real, r: real, f: FieldSpec): (y: real)
    requires WellFormed(f) && IsDraw(r)
    ensures Within(y, f)
    ensures Within(x + (r - 0.5) * f.step, f) ==> y == x + (r - 0.5) * f.step
    ensures x + (r - 0.5) * f.step < f.lo ==> y == f.lo
    ensures x + (r - 0.5) * f.step > f.hi ==> y == f.hi
    ensures Within(x, f) ==> Abs(y - x) <= f.step / 2.0
  {
    var moved := x + (r - 0.5) * f.step;
    assert Within(x, f) ==> Abs(Clamp(moved, f.lo, f.hi) - x) <= f.step / 2.0 by {
      if Within(x, f) {
        WalkMovesLittle(x, r, f);
      }
    }
    Clamp(moved, f.lo, f.hi)
  }

  lemma WalkMovesLittle(x: real, r: real, f: FieldSpec)
    requires WellFormed(f) && IsDraw(r) && Within(x, f)
    ensures Abs(Clamp(x + (r - 0.5) * f.step, f.lo, f.hi) - x) <= f.step / 2.0
  {
    var moved := x + (r - 0.5) * f.step;
    WalkOffsetBound(r, f.step);
    assert moved - x == (r - 0.5) * f.step;
    assert -(f.step / 2.0) <= moved - x <= f.step / 2.0;
    assert Abs(moved - x) <= f.step / 2.0;
    assert Clamp(x, f.lo, f.hi) == x;
    ClampNonExpansive(moved, x, f.lo, f.hi);
  }

  lemma WalkOffsetBound(r: real, step: real)
    requires IsDraw(r) && 0.0 <= step
    ensures -step / 2.0 <= (r - 0.5) * step <= step / 2.0
  {
    assert (r - 0.5) * step == r * step - step / 2.0;
    assert 0.0 <= r * step <= step;
  }

  /** `Math.floor((r - 0.5) * 2)`: a draw below one half decrements the
      counter, any other draw leaves it alone; it never increments it. */
  function FillerDelta(r: real): (d: int)
    requires IsDraw(r)
    ensures d == -1 || d == 0
    ensures d == -1 <==> r < 0.5
  {
    ((r - 0.5) * 2.0).Floor
  }

  /** `Math.max(0, count + delta)` on one counter; the word is kept. */
  function StepFiller(fw: FillerWord, r: real): (g: FillerWord)
    requires IsDraw(r)
    ensures g.word == fw.word
    ensures g.count >= 0
    ensures fw.count >= 1 ==> (g.count == fw.count - 1 <==> r < 0.5)
    ensures fw.count >= 1 ==> (g.count == fw.count <==> r >= 0.5)
    ensures fw.count <= 0 ==> g.count == 0
  {
    var c := fw.count + FillerDelta(r);
    fw.(count := if c < 0 then 0 else c)
  }

  /** A counter after a tick: never negative, never above its old value
      (or zero), and at most one below it. */
  predicate CountStepped(before: int, after: int)
  {
    0 <= after && after >= before - 1 && (after <= before || after == 0)
  }

  /** `prev.fillerWords.map(...)`: each counter stepped with its own draw. */
  function StepFillers(fws: seq<FillerWord>, rs: seq<real>): (gs: seq<FillerWord>)
    requires |rs| == |fws|
    requires forall i :: 0 <= i < |rs| ==> IsDraw(rs[i])
    ensures |gs| == |fws|
    ensures forall i :: 0 <= i < |fws| ==> gs[i].word == fws[i].word
    ensures forall i :: 0 <= i < |fws| ==> CountStepped(fws[i].count, gs[i].count)
    ensures forall i :: 0 <= i < |fws| ==> gs[i] == StepFiller(fws[i], rs[i])
  {
    if |fws| == 0 then []
    else [StepFiller(fws[0], rs[0])] + StepFillers(fws[1..], rs[1..])
  }

  /** One tick of the sampler. Whatever the previous snapshot, the next one
      is valid; the filler list keeps its length, order and words; and from a
      snapshot that was in range no reading moves by more than half its step. */
  function Step(s: Snapshot, d: Draws): (t: Snapshot)
    requires DrawsFor(d, |s.fillerWords|)
    ensures Valid(t)
    ensures |t.fillerWords| == |s.fillerWords|
    ensures forall i :: 0 <= i < |s.fillerWords| ==>
      && t.fillerWords[i].word == s.fillerWords[i].word
      && CountStepped(s.fillerWords[i].count, t.fillerWords[i].count)
    ensures InRange(s) ==>
      && Abs(t.speed - s.speed) <= 5.0
      && Abs(t.clarity - s.clarity) <= 2.5
      && Abs(t.pitch - s.pitch) <= 2.5
      && Abs(t.volume - s.volume) <= 2.5
      && Abs(t.sentenceComplexity - s.sentenceComplexity) <= 2.5
      && Abs(t.posture - s.posture) <= 2.5
    ensures t.speed == Walk(s.speed, d.speed, Speed) && t.clarity == Walk(s.clarity, d.clarity, Clarity)
    ensures t.pitch == Walk(s.pitch, d.pitch, Pitch) && t.volume == Walk(s.volume, d.volume, Volume)
    ensures t.sentenceComplexity == Walk(s.sentenceComplexity, d.complexity, Complexity)
    ensures t.posture == Walk(s.posture, d.posture, Posture)
  {
    Snapshot(
      Walk(s.speed, d.speed, Speed),
      Walk(s.clarity, d.clarity, Clarity),
      StepFillers(s.fillerWords, d.filler),
      Walk(s.pitch, d.pitch, Pitch),
      Walk(s.volume, d.volume, Volume),
      Walk(s.sentenceComplexity, d.complexity, Complexity),
      Walk(s.posture, d.posture, Posture))
  }

  /** Every tick in `ds` has draws for `n` filler words. */
  predicate DrawsForAll(ds: seq<Draws>, n: nat)
  {
    forall k :: 0 <= k < |ds| ==> DrawsFor(ds[k], n)
  }

  /** The snapshot after one tick per element of `ds`. */
  function Run(s: Snapshot, ds: seq<Draws>): (t: Snapshot)
    requires DrawsForAll(ds, |s.fillerWords|)
    ensures |t.fillerWords| == |s.fillerWords|
    decreases |ds|
  {
    if |ds| == 0 then s else Run(Step(s, ds[0]), ds[1..])
  }

  /** Counters only go down over any run: each one stays at or below its
      starting value (or zero) and at or above zero, and words never change. */
  predicate CountsBoundedBy(before: seq<FillerWord>, after: seq<FillerWord>)
  {
    && |after| == |before|
    && forall i :: 0 <= i < |before| ==>
      && after[i].word == before[i].word
      && 0 <= after[i].count
      && (after[i].count <= before[i].count || after[i].count == 0)
  }

  /** Over any number of ticks the snapshot stays valid and the filler
      counters never grow. */
  lemma {:induction false} RunStaysValid(s: Snapshot, ds: seq<Draws>)
    requires Valid(s)
    requires DrawsForAll(ds, |s.fillerWords|)
    ensures Valid(Run(s, ds))
    ensures CountsBoundedBy(s.fillerWords, Run(s, ds).fillerWords)
    decreases |ds|
  {
    if |ds| > 0 {
      var t := Step(s, ds[0]);
      assert DrawsForAll(ds[1..], |t.fillerWords|) by {
        forall k | 0 <= k < |ds[1..]| ensures DrawsFor(ds[1..][k], |t.fillerWords|) {
          assert ds[1..][k] == ds[k + 1];
        }
      }
      RunStaysValid(t, ds[1..]);
    }
  }

  /** How far each reading may have drifted after `k` ticks from an in-range
      snapshot: half a step per tick. */
  predicate DriftAtMost(s: Snapshot, t: Snapshot, k: nat)
  {
    var n := k as real;
    && Abs(t.speed - s.speed) <= 5.0 * n
    && Abs(t.clarity - s.clarity) <= 2.5 * n
    && Abs(t.pitch - s.pitch) <= 2.5 * n
    && Abs(t.volume - s.volume) <= 2.5 * n
    && Abs(t.sentenceComplexity - s.sentenceComplexity) <= 2.5 * n
    && Abs(t.posture - s.posture) <= 2.5 * n
  }

  /** After `|ds|` ticks from an in-range snapshot no reading has moved more
      than `|ds|` half-steps. */
  lemma {:induction false} RunDrift(s: Snapshot, ds: seq<Draws>)
    requires InRange(s)
    requires DrawsForAll(ds, |s.fillerWords|)
    ensures DriftAtMost(s, Run(s, ds), |ds|)
    decreases |ds|
  {
    if |ds| > 0 {
      var t := Step(s, ds[0]);
      assert DrawsForAll(ds[1..], |t.fillerWords|) by {
        forall k | 0 <= k < |ds[1..]| ensures DrawsFor(ds[1..][k], |t.fillerWords|) {
          assert ds[1..][k] == ds[k + 1];
        }
      }
      RunDrift(t, ds[1..]);
      assert Run(s, ds) == Run(t, ds[1..]);
    }
  }

  /** The width, in percent, of the speaking-speed bar: `(speed - 80) / 0.8`.
      An in-range speed fills between 0 and 100 percent, and the width maps
      back to the speed. */
  function SpeedBarWidth(speed: real): (w: real)
    ensures Within(speed, Speed) ==> 0.0 <= w <= 100.0
    ensures Speed.lo + 0.8 * w == speed
  {
    (speed - 80.0) / 0.8
  }

  /** A faster speaking speed never draws a shorter bar. */
  lemma SpeedBarMonotone(a: real, b: real)
    requires a <= b
    ensures SpeedBarWidth(a) <= SpeedBarWidth(b)
  {
  }
}

=== FILE: live_session.dfy ===
/**
 The metric slice of the live panel's state (app/page.tsx): the current
 snapshot and the speed and clarity chart windows. The panel mounts with the
 initial snapshot, and each sampler tick replaces the snapshot and then lets
 the chart effect append the new speed and clarity, both stamped with the one
 capture time `new Date().getTime()`, here a parameter. Unmounting clears the
 sampler interval, after which no tick happens.
 */
module LiveSession {
  import opened Common
  import opened LiveMetrics
  import opened RollingWindow

  /** A charted sample: capture time in milliseconds and the reading. */
  datatype Point = Point(time: int, value: real)

  /** `active` holds while the sampler interval is scheduled. */
  datatype Session = Session(snapshot: Snapshot, speedChart: seq<Point>, clarityChart: seq<Point>, active: bool)

  /** The chart effect run after each snapshot change: both windows receive
      the current reading at the same capture time. */
  function Capture(ses: Session, time: int): (t: Session)
    ensures t.snapshot == ses.snapshot
    ensures |t.speedChart| > 0 && t.speedChart[|t.speedChart| - 1] == Point(time, ses.snapshot.speed)
    ensures |t.clarityChart| > 0 && t.clarityChart[|t.clarityChart| - 1] == Point(time, ses.snapshot.clarity)
    ensures |t.speedChart| <= Capacity && |t.clarityChart| <= Capacity
    ensures t.speedChart == Append(ses.speedChart, Point(time, ses.snapshot.speed))
    ensures t.clarityChart == Append(ses.clarityChart, Point(time, ses.snapshot.clarity))
  {
    ses.(speedChart := Append(ses.speedChart, Point(time, ses.snapshot.speed)),
         clarityChart := Append(ses.clarityChart, Point(time, ses.snapshot.clarity)))
  }

  /** The chart effect keeps each window's history: a window grows by one
      point until it holds ten, and the points before the new one are the
      newest points of the old window, in order. */
  lemma CaptureKeepsHistory(ses: Session, time: int)
    ensures var t := Capture(ses, time);
      && |t.speedChart| == (if |ses.speedChart| < Capacity then |ses.speedChart| + 1 else Capacity)
      && |t.clarityChart| == (if |ses.clarityChart| < Capacity then |ses.clarityChart| + 1 else Capacity)
      && t.speedChart[..|t.speedChart| - 1] == ses.speedChart[|ses.speedChart| - (|t.speedChart| - 1)..]
      && t.clarityChart[..|t.clarityChart| - 1] == ses.clarityChart[|ses.clarityChart| - (|t.clarityChart| - 1)..]
  {
  }

  /** Both windows hold the same number of points and agree on the capture
      time at every position. */
  predicate Synchronized(ses: Session)
  {
    && |ses.speedChart| == |ses.clarityChart|
    && forall i :: 0 <= i < |ses.speedChart| ==> ses.speedChart[i].time == ses.clarityChart[i].time
  }

  /** Every charted reading is within its metric's range. */
  predicate ChartsInRange(ses: Session)
  {
    && (forall i :: 0 <= i < |ses.speedChart| ==> Within(ses.speedChart[i].value, Speed))
    && (forall i :: 0 <= i < |ses.clarityChart| ==> Within(ses.clarityChart[i].value, Clarity))
  }

  /** The invariant of the metric slice: a valid snapshot, synchronized
      non-empty windows of at most ten in-range points, the newest of which
      show the current snapshot. */
  predicate Inv(ses: Session)
  {
    && Valid(ses.snapshot)
    && Synchronized(ses)
    && 1 <= |ses.speedChart| <= Capacity
    && ChartsInRange(ses)
    && ses.speedChart[|ses.speedChart| - 1].value == ses.snapshot.speed
    && ses.clarityChart[|ses.clarityChart| - 1].value == ses.snapshot.clarity
  }

  /** The state right after mount: the initial snapshot, charted once, and
      the sampler interval running. */
  function Mount(time: int): (ses: Session)
    ensures Inv(ses) && ses.active
    ensures ses.snapshot == Initial()
    ensures ses.speedChart == [Point(time, 120.0)] && ses.clarityChart == [Point(time, 75.0)]
  {
    Capture(Session(Initial(), [], [], true), time)
  }

  /** One sampler tick followed by the chart effect. Once the interval is
      cleared there is no tick, and nothing changes. */
  function Tick(ses: Session, d: Draws, time: int): (t: Session)
    requires DrawsFor(d, |ses.snapshot.fillerWords|)
    ensures |t.snapshot.fillerWords| == |ses.snapshot.fillerWords|
    ensures t.active == ses.active
    ensures ses.active ==> Valid(t.snapshot)
    ensures ses.active ==> t.snapshot == Step(ses.snapshot, d)
    ensures ses.active ==> t.speedChart == Append(ses.speedChart, Point(time, t.snapshot.speed))
    ensures ses.active ==> t.clarityChart == Append(ses.clarityChart, Point(time, t.snapshot.clarity))
    ensures !ses.active ==> t == ses
  {
    if ses.active then Capture(ses.(snapshot := Step(ses.snapshot, d)), time) else ses
  }

  /** The effect cleanup `clearInterval(interval)`: stops the sampler and
      leaves the snapshot and both windows as they are. */
  function Unmount(ses: Session): (t: Session)
    ensures !t.active
    ensures t.(active := ses.active) == ses
  {
    ses.(active := false)
  }

  /** A tick keeps the invariant of the metric slice. */
  lemma TickKeepsInv(ses: Session, d: Draws, time: int)
    requires Inv(ses)
    requires DrawsFor(d, |ses.snapshot.fillerWords|)
    ensures Inv(Tick(ses, d, time))
  {
    var t := Tick(ses, d, time);
    if !ses.active {
      return;
    }
    var n := |t.speedChart|;
    assert |t.clarityChart| == n;
    forall i | 0 <= i < n
      ensures t.speedChart[i].time == t.clarityChart[i].time
      ensures Within(t.speedChart[i].value, Speed)
      ensures Within(t.clarityChart[i].value, Clarity)
    {
      AppendPositions(ses.speedChart, Point(time, t.snapshot.speed), i);
      AppendPositions(ses.clarityChart, Point(time, t.snapshot.clarity), i);
    }
  }

  /** What can happen to the panel after mount: the sampler interval fires,
      with its draws and capture time, or the panel unmounts. */
  datatype Input = Sample(draws: Draws, time: int) | Teardown

  predicate InputsFor(ticks: seq<Input>, n: nat)
  {
    forall k :: 0 <= k < |ticks| ==> ticks[k].Sample? ==> DrawsFor(ticks[k].draws, n)
  }

  function Apply(ses: Session, e: Input): (t: Session)
    requires e.Sample? ==> DrawsFor(e.draws, |ses.snapshot.fillerWords|)
    ensures |t.snapshot.fillerWords| == |ses.snapshot.fillerWords|
    ensures e.Teardown? ==> t == Unmount(ses)
    ensures e.Sample? ==> t == Tick(ses, e.draws, e.time)
  {
    match e
    case Sample(d, time) => Tick(ses, d, time)
    case Teardown => Unmount(ses)
  }

  /** The state after a sequence of inputs. */
  function Replay(ses: Session, ticks: seq<Input>): (t: Session)
    requires InputsFor(ticks, |ses.snapshot.fillerWords|)
    ensures |t.snapshot.fillerWords| == |ses.snapshot.fillerWords|
    decreases |ticks|
  {
    if |ticks| == 0 then ses
    else Replay(Apply(ses, ticks[0]), ticks[1..])
  }

  lemma InputsForTail(ses: Session, ticks: seq<Input>)
    requires |ticks| > 0
    requires InputsFor(ticks, |ses.snapshot.fillerWords|)
    ensures InputsFor(ticks[1..], |Apply(ses, ticks[0]).snapshot.fillerWords|)
  {
    forall k | 0 <= k < |ticks[1..]| && ticks[1..][k].Sample?
      ensures DrawsFor(ticks[1..][k].draws, |Apply(ses, ticks[0]).snapshot.fillerWords|)
    {
      assert ticks[1..][k] == ticks[k + 1];
    }
  }

  /** However many ticks run after mount, and whether or not the panel
      unmounts in between, the metric slice keeps its invariant: readings in
      range, counters non-negative, at most ten synchronized points per
      chart. */
  lemma {:induction false} ReplayKeepsInv(ses: Session, ticks: seq<Input>)
    requires Inv(ses)
    requires InputsFor(ticks, |ses.snapshot.fillerWords|)
    ensures Inv(Replay(ses, ticks))
    decreases |ticks|
  {
    if |ticks| > 0 {
      var t := Apply(ses, ticks[0]);
      InputsForTail(ses, ticks);
      if ticks[0].Sample? {
        TickKeepsInv(ses, ticks[0].draws, ticks[0].time);
      }
      ReplayKeepsInv(t, ticks[1..]);
    }
  }

  /** After the sampler interval is cleared, nothing can change the snapshot
      or either chart window, whatever inputs follow. */
  lemma {:induction false} FrozenAfterUnmount(ses: Session, ticks: seq<Input>)
    requires !ses.active
    requires InputsFor(ticks, |ses.snapshot.fillerWords|)
    ensures Replay(ses, ticks) == ses
    decreases |ticks|
  {
    if |ticks| > 0 {
      InputsForTail(ses, ticks);
      FrozenAfterUnmount(Apply(ses, ticks[0]), ticks[1..]);
    }
  }

  /** Whatever happens after a teardown, the panel keeps the snapshot and the
      chart windows it had at that moment. */
  lemma TeardownFreezes(ses: Session, ticks: seq<Input>)
    requires InputsFor(ticks, |ses.snapshot.fillerWords|)
    ensures InputsFor([Teardown] + ticks, |ses.snapshot.fillerWords|)
    ensures var t := Replay(ses, [Teardown] + ticks);
      && t.snapshot == ses.snapshot
      && t.speedChart == ses.speedChart
      && t.clarityChart == ses.clarityChart
      && !t.active
  {
    var all := [Teardown] + ticks;
    assert all[1..] == ticks;
    assert InputsFor(all, |ses.snapshot.fillerWords|) by {
      forall k | 0 <= k < |all| && all[k].Sample?
        ensures DrawsFor(all[k].draws, |ses.snapshot.fillerWords|)
      {
        assert all[k] == ticks[k - 1];
      }
    }
    FrozenAfterUnmount(Unmount(ses), ticks);
  }

  /** Capture times never decrease along a window. */
  predicate Chronological(w: seq<Point>)
  {
    forall i, j :: 0 <= i < j < |w| ==> w[i].time <= w[j].time
  }

  /** When the clock has not gone backwards since the last capture, a tick
      keeps both windows in capture order. */
  lemma TickKeepsChronological(ses: Session, d: Draws, time: int)
    requires DrawsFor(d, |ses.snapshot.fillerWords|)
    requires Chronological(ses.speedChart) && Chronological(ses.clarityChart)
    requires |ses.speedChart| > 0 ==> ses.speedChart[|ses.speedChart| - 1].time <= time
    requires |ses.clarityChart| > 0 ==> ses.clarityChart[|ses.clarityChart| - 1].time <= time
    ensures Chronological(Tick(ses, d, time).speedChart)
    ensures Chronological(Tick(ses, d, time).clarityChart)
  {
    if ses.active {
      var next := Step(ses.snapshot, d);
      AppendKeepsChronological(ses.speedChart, Point(time, next.speed));
      AppendKeepsChronological(ses.clarityChart, Point(time, next.clarity));
      assert Tick(ses, d, time).speedChart == Append(ses.speedChart, Point(time, next.speed));
      assert Tick(ses, d, time).clarityChart == Append(ses.clarityChart, Point(time, next.clarity));
    }
  }

  lemma AppendKeepsChronological(w: seq<Point>, p: Point)
    requires Chronological(w)
    requires |w| > 0 ==> w[|w| - 1].time <= p.time
    ensures Chronological(Append(w, p))
  {
    var r := Append(w, p);
    forall i, j | 0 <= i < j < |r| ensures r[i].time <= r[j].time {
      AppendedPairOrdered(w, p, i, j);
    }
  }

  lemma AppendedPairOrdered(w: seq<Point>, p: Point, i: nat, j: nat)
    requires Chronological(w)
    requires |w| > 0 ==> w[|w| - 1].time <= p.time
    requires i < j < |Append(w, p)|
    ensures Append(w, p)[i].time <= Append(w, p)[j].time
  {
    var r := Append(w, p);
    var off := |w| - (|r| - 1);
    AppendPositions(w, p, i);
    AppendPositions(w, p, j);
    assert r[i] == w[off + i];
    if j == |r| - 1 {
      assert w[off + i].time <= w[|w| - 1].time;
    } else {
      assert r[j] == w[off + j];
    }
  }
}

=== FILE: notifications.dfy ===
/**
 The coaching-notification slice of the live panel (app/page.tsx). A raise
 interval shows a message picked with `Math.floor(Math.random() * length)`
 and starts a hide timeout; a hide timeout clears visibility; unmounting
 clears the raise interval only. Timers become discrete events: `Raise`
 when the interval fires, `HideFires` when one pending timeout fires.
 */
module Notifications {

  /** The fixed message corpus. */
  const Corpus: seq<string> := [
    "Try to vary your tone for emphasis on key points.",
    "Remember to pause briefly between main ideas.",
    "Make eye contact with different areas of your audience.",
    "Use hand gestures to illustrate your points.",
    "Slow down slightly to improve clarity.",
    "Consider using a rhetorical question to engage the audience.",
    "Summarize your main points before moving to the next section."
  ]

  /** `Math.floor(r * n)` for a draw `r` in `[0, 1)`: a valid index, and
      the one whose slice `[i/n, (i+1)/n)` of the unit interval holds `r`. */
  function PickIndex(r: real, n: nat): (i: int)
    requires 0.0 <= r < 1.0 && n > 0
    ensures 0 <= i < n
    ensures i as real <= r * n as real < (i + 1) as real
  {
    assert r * n as real < n as real by {
      assert (1.0 - r) * n as real > 0.0;
    }
    (r * n as real).Floor
  }

  /** Every index is picked by some draw, so every message can be shown. */
  lemma PickIndexReachesEvery(i: nat, n: nat)
    requires i < n
    ensures 0.0 <= i as real / n as real < 1.0
    ensures PickIndex(i as real / n as real, n) == i
  {
    var r := i as real / n as real;
    assert r * n as real == i as real;
  }

  /** The notification slice together with the panel's timers:
      `intervalActive` until unmount, and the number of hide timeouts that
      are scheduled but have not fired. */
  datatype Scheduler = Scheduler(message: string, visible: bool, intervalActive: bool, pendingHides: nat)

  /** The state on mount: empty message, hidden, raise interval running. */
  const Mounted := Scheduler("", false, true, 0)

  datatype Event = Raise(r: real) | HideFires | Unmount

  predicate Admissible(e: Event)
  {
    e.Raise? ==> 0.0 <= e.r < 1.0
  }

  /** The effect of one timer event. A raise only happens while the interval
      runs; it shows a corpus message and schedules one hide. A hide fires
      only if one is pending; it hides the message and leaves its text.
      Unmount stops the interval and leaves pending hides scheduled. */
  function Apply(s: Scheduler, e: Event): (t: Scheduler)
    requires Admissible(e)
    ensures e.Raise? && s.intervalActive ==>
      t.visible && t.message in Corpus && t.message == Corpus[PickIndex(e.r, |Corpus|)]
      && t.pendingHides == s.pendingHides + 1 && t.intervalActive
    ensures e.HideFires? && s.pendingHides > 0 ==>
      !t.visible && t.message == s.message
      && t.pendingHides == s.pendingHides - 1 && t.intervalActive == s.intervalActive
    ensures e.Unmount? ==> !t.intervalActive && t.(intervalActive := s.intervalActive) == s
    ensures (e.Raise? && !s.intervalActive) || (e.HideFires? && s.pendingHides == 0) ==> t == s
  {
    match e
    case Raise(r) =>
      if s.intervalActive then
        Scheduler(Corpus[PickIndex(r, |Corpus|)], true, true, s.pendingHides + 1)
      else s
    case HideFires =>
      if s.pendingHides > 0 then s.(visible := false, pendingHides := s.pendingHides - 1)
      else s
    case Unmount =>
      s.(intervalActive := false)
  }

  /** What the scheduler keeps: a visible notification is a corpus message
      with a hide still pending, and a message never outlives the corpus. */
  predicate Inv(s: Scheduler)
  {
    && (s.visible ==> s.pendingHides > 0 && s.message in Corpus)
    && (s.message == "" || s.message in Corpus)
  }

  predicate AllAdmissible(es: seq<Event>)
  {
    forall k :: 0 <= k < |es| ==> Admissible(es[k])
  }

  function Replay(s: Scheduler, es: seq<Event>): Scheduler
    requires AllAdmissible(es)
    decreases |es|
  {
    if |es| == 0 then s else Replay(Apply(s, es[0]), es[1..])
  }

  /** Any interleaving of raises, hides and unmount from mount keeps the
      invariant: whatever is shown is a corpus message that is due to be
      hidden. */
  lemma {:induction false} ReplayKeepsInv(s: Scheduler, es: seq<Event>)
    requires Inv(s)
    requires AllAdmissible(es)
    ensures Inv(Replay(s, es))
    decreases |es|
  {
    if |es| > 0 {
      var t := Apply(s, es[0]);
      assert AllAdmissible(es[1..]) by {
        forall k | 0 <= k < |es[1..]| ensures Admissible(es[1..][k]) {
          assert es[1..][k] == es[k + 1];
        }
      }
      ReplayKeepsInv(t, es[1..]);
    }
  }

  /** From mount, whatever timer events occur, a shown notification is
      always one of the corpus messages and always has a hide pending. */
  lemma ShownMessageIsFromCorpus(es: seq<Event>)
    requires AllAdmissible(es)
    ensures var s := Replay(Mounted, es);
      s.visible ==> s.message in Corpus && s.pendingHides > 0
  {
    ReplayKeepsInv(Mounted, es);
  }

  /** After unmount no raise can happen any more: the message text is frozen
      and the interval stays stopped, whatever events follow. */
  lemma {:induction false} NoRaiseAfterUnmount(s: Scheduler, es: seq<Event>)
    requires !s.intervalActive
    requires AllAdmissible(es)
    ensures Replay(s, es).message == s.message
    ensures !Replay(s, es).intervalActive
    ensures Replay(s, es).pendingHides <= s.pendingHides
    decreases |es|
  {
    if |es| > 0 {
      assert AllAdmissible(es[1..]) by {
        forall k | 0 <= k < |es[1..]| ensures Admissible(es[1..][k]) {
          assert es[1..][k] == es[k + 1];
        }
      }
      NoRaiseAfterUnmount(Apply(s, es[0]), es[1..]);
    }
  }

  /** Unmount does not cancel a pending hide timeout: after a raise and an
      unmount a hide is still scheduled, and it still fires. The state
      update it makes lands on an unmounted component, where React discards
      it, so after unmount the fields `message` and `visible` record only
      what the timers attempt, not anything on screen. */
  lemma HideFiresAfterUnmount()
    ensures var torn := Replay(Mounted, [Raise(0.0), Unmount]);
      && !torn.intervalActive
      && torn.pendingHides > 0
      && Apply(torn, HideFires).pendingHides == torn.pendingHides - 1
  {
    var raised := Apply(Mounted, Raise(0.0));
    assert raised.pendingHides == 1;
    assert Replay(Mounted, [Raise(0.0), Unmount]) == Apply(raised, Unmount) by {
      assert [Raise(0.0), Unmount][1..] == [Unmount];
      assert [Unmount][1..] == [];
    }
  }
}

=== FILE: rolling_window.dfy ===
/**
 The chart windows of the live panel (app/page.tsx): `[...prev, p].slice(-10)`
 appends one point and keeps only the ten most recent.
 */
module RollingWindow {

  /** The most points a chart window holds. */
  const Capacity: nat := 10

  /** `s.slice(-n)` for a positive `n`: the last `n` elements of `s`, or all
      of them when there are fewer. (`slice(-0)` would be the whole array.) */
  function TakeLast<T>(s: seq<T>, n: nat): (r: seq<T>)
    requires n > 0
    ensures |r| == if |s| < n then |s| else n
    ensures r == s[|s| - |r|..]
  {
    if |s| <= n then s else s[|s| - n..]
  }

  /** Appends `p` to a window, evicting the oldest point when it is full. */
  function Append<T>(w: seq<T>, p: T): (r: seq<T>)
    ensures |r| == if |w| < Capacity then |w| + 1 else Capacity
    ensures r[|r| - 1] == p
    ensures r[..|r| - 1] == w[|w| - (|r| - 1)..]
    ensures |w| < Capacity ==> r == w + [p]
  {
    TakeLast(w + [p], Capacity)
  }

  /** Every point of the new window is either the appended point, at the
      end, or a point of the old window, at its old position shifted by the
      number evicted. */
  lemma AppendPositions<T>(w: seq<T>, p: T, i: nat)
    requires i < |Append(w, p)|
    ensures var r := Append(w, p);
      && (i == |r| - 1 ==> r[i] == p)
      && (i < |r| - 1 ==> 0 <= |w| - (|r| - 1) + i < |w| && r[i] == w[|w| - (|r| - 1) + i])
  {
    var r := Append(w, p);
    if i < |r| - 1 {
      assert r[i] == r[..|r| - 1][i];
    }
  }

  /** The window after appending every element of `ps` in order. */
  function AppendAll<T>(w: seq<T>, ps: seq<T>): seq<T>
    decreases |ps|
  {
    if |ps| == 0 then w else AppendAll(Append(w, ps[0]), ps[1..])
  }

  /** Taking the tail of a prefix first changes nothing once the tail is
      taken again after appending more. */
  lemma TakeLastAbsorbs<T>(a: seq<T>, b: seq<T>, n: nat)
    requires n > 0
    ensures TakeLast(TakeLast(a, n) + b, n) == TakeLast(a + b, n)
  {
    if |a| > n {
      var c := a + b;
      assert TakeLast(a, n) + b == c[|a| - n..];
      assert c[|a| - n..][|b|..] == c[|c| - n..];
    }
  }

  /** Whatever was appended, a window holds exactly the ten most recent
      points of its whole history, oldest first. */
  lemma {:induction false} AppendAllKeepsLatest<T>(w: seq<T>, ps: seq<T>)
    requires |w| <= Capacity
    ensures AppendAll(w, ps) == TakeLast(w + ps, Capacity)
    decreases |ps|
  {
    if |ps| == 0 {
      assert w + ps == w;
    } else {
      var w' := Append(w, ps[0]);
      AppendAllKeepsLatest(w', ps[1..]);
      AppendThenTake(w, ps);
    }
  }

  /** One append followed by the rest of the history leaves the same tail as
      the whole history. */
  lemma AppendThenTake<T>(w: seq<T>, ps: seq<T>)
    requires |ps| > 0
    ensures TakeLast(Append(w, ps[0]) + ps[1..], Capacity) == TakeLast(w + ps, Capacity)
  {
    TakeLastAbsorbs(w + [ps[0]], ps[1..], Capacity);
    assert w + [ps[0]] + ps[1..] == w + ps;
  }

  /** Fifteen appends to an empty window leave the last ten, in order. */
  lemma FifteenAppends<T>(ps: seq<T>)
    requires |ps| == 15
    ensures AppendAll([], ps) == ps[5..]
  {
    AppendAllKeepsLatest([], ps);
    assert [] + ps == ps;
  }
}

=== FILE: uploader.dfy ===
/**
 The uploaded-video view (components/presentation-uploader.tsx): the
 reshaping of a report's parallel arrays into chart records, the upload
 state (`file`, `loading`, `results`) driven by the analyze button and the
 settling of its request, and the tab-label capitaliser.
 */
module Uploader {
  import opened Common
  import opened Analysis

  /** One joined chart record. A field is absent where its array is shorter
      than `timestamps` (JavaScript reads `undefined` past the end). */
  datatype ChartPoint = ChartPoint(
    timestamp: int, pitch: Option<real>, energy: Option<real>,
    speakingRate: Option<real>, confidence: Option<real>)

  /** `a[i]` in JavaScript. */
  function At(a: seq<real>, i: nat): (v: Option<real>)
    ensures v.Some? <==> i < |a|
    ensures i < |a| ==> v.value == a[i]
  {
    if i < |a| then Some(a[i]) else None
  }

  /** `transformTimeSeriesData`: one record per timestamp, carrying the
      rounded timestamp and the entries of the other arrays at that index. */
  function TransformTimeSeries(ts: TimeSeries): (r: seq<ChartPoint>)
    ensures |r| == |ts.timestamps|
    ensures forall i :: 0 <= i < |r| ==>
      && ts.timestamps[i] - 0.5 < r[i].timestamp as real <= ts.timestamps[i] + 0.5
      && r[i].pitch == At(ts.pitch, i)
      && r[i].energy == At(ts.energy, i)
      && r[i].speakingRate == At(ts.speakingRate, i)
      && r[i].confidence == At(ts.confidence, i)
  {
    seq(|ts.timestamps|, i requires 0 <= i < |ts.timestamps| =>
      ChartPoint(Round(ts.timestamps[i]), At(ts.pitch, i), At(ts.energy, i),
                 At(ts.speakingRate, i), At(ts.confidence, i)))
  }

  /** Every field of the record is present. */
  predicate Complete(p: ChartPoint)
  {
    p.pitch.Some? && p.energy.Some? && p.speakingRate.Some? && p.confidence.Some?
  }

  /** The inverse reshaping: the parallel arrays of a list of records, when
      every record is complete. */
  function Unzip(ps: seq<ChartPoint>): (r: Option<TimeSeries>)
    ensures r.Some? <==> forall i :: 0 <= i < |ps| ==> Complete(ps[i])
    ensures r.Some? ==> Aligned(r.value, |ps|)
  {
    if forall i :: 0 <= i < |ps| ==> Complete(ps[i]) then
      Some(TimeSeries(
        seq(|ps|, i requires 0 <= i < |ps| => ps[i].timestamp as real),
        seq(|ps|, i requires 0 <= i < |ps| && Complete(ps[i]) => ps[i].pitch.value),
        seq(|ps|, i requires 0 <= i < |ps| && Complete(ps[i]) => ps[i].energy.value),
        seq(|ps|, i requires 0 <= i < |ps| && Complete(ps[i]) => ps[i].speakingRate.value),
        seq(|ps|, i requires 0 <= i < |ps| && Complete(ps[i]) => ps[i].confidence.value)))
    else None
  }

  /** Every array is at least as long as `timestamps`. */
  predicate Covers(ts: TimeSeries)
  {
    var n := |ts.timestamps|;
    n <= |ts.pitch| && n <= |ts.energy| && n <= |ts.speakingRate| && n <= |ts.confidence|
  }

  /** Every record is complete exactly when the other arrays cover the
      timestamps. */
  lemma TransformCompleteIff(ts: TimeSeries)
    ensures Unzip(TransformTimeSeries(ts)).Some? <==> Covers(ts)
  {
    var r := TransformTimeSeries(ts);
    if !Covers(ts) {
      var n := |ts.timestamps|;
      var m := n - 1;
      if |ts.pitch| < n { m := |ts.pitch|; }
      else if |ts.energy| < n { m := |ts.energy|; }
      else if |ts.speakingRate| < n { m := |ts.speakingRate|; }
      else { m := |ts.confidence|; }
      assert !Complete(r[m]);
    }
  }

  /** The integral part of a time series: every timestamp a whole number. */
  predicate IntegralTimestamps(ts: TimeSeries)
  {
    forall i :: 0 <= i < |ts.timestamps| ==> ts.timestamps[i] == ts.timestamps[i].Floor as real
  }

  /** Round trip: reshaping equal-length arrays with whole-number timestamps
      and unzipping the records gives back the arrays. */
  lemma TransformRoundTrip(ts: TimeSeries)
    requires Aligned(ts, |ts.timestamps|)
    requires IntegralTimestamps(ts)
    ensures Unzip(TransformTimeSeries(ts)) == Some(ts)
  {
    var r := TransformTimeSeries(ts);
    TransformCompleteIff(ts);
    var u := Unzip(r).value;
    forall i | 0 <= i < |r| ensures u.timestamps[i] == ts.timestamps[i] {
      RoundOfIntegral(ts.timestamps[i]);
    }
    assert u.timestamps == ts.timestamps;
    assert u.pitch == ts.pitch;
    assert u.energy == ts.energy;
    assert u.speakingRate == ts.speakingRate;
    assert u.confidence == ts.confidence;
  }

  /** `chartData`: the reshaped series when the stored response carries
      one, and no records otherwise. */
  function ChartData(results: Option<Response>): (r: seq<ChartPoint>)
    ensures results.None? || results.value.Error? ==> r == []
    ensures results.Some? && results.value.Analyzed? ==>
      |r| == |results.value.report.timeSeries.timestamps|
  {
    match results
    case Some(Analyzed(rep)) => TransformTimeSeries(rep.timeSeries)
    case _ => []
  }

  /** End to end: charting a report whose segments were built from `xs`
      and whose time series describes them (as the backend assembles it)
      shows, at index `i`, segment `i`'s features at its rounded start time. */
  lemma ChartShowsSegments(rep: Report, xs: seq<SegmentInput>)
    requires BuiltFrom(rep.segments, xs)
    requires Describes(rep.timeSeries, rep.segments)
    ensures var r := ChartData(Some(Analyzed(rep)));
      && |r| == |xs|
      && forall i :: 0 <= i < |xs| ==>
        && r[i].timestamp == Round(xs[i].start)
        && Complete(r[i])
        && r[i].pitch.value == xs[i].features.pitchAvg
        && r[i].energy.value == xs[i].features.energy
        && r[i].speakingRate.value == xs[i].features.speakingRate
        && r[i].confidence.value == xs[i].confidence.GetOr(DefaultConfidence)
  {
    var r := ChartData(Some(Analyzed(rep)));
    forall i | 0 <= i < |xs| ensures r[i].timestamp == Round(xs[i].start) {
      RoundIsUnique(rep.timeSeries.timestamps[i], r[i].timestamp);
    }
  }

  /** The outcome of the analysis request: the response body, or a
      rejection (transport error or non-2xx status). */
  datatype Outcome = Responded(body: Response) | Rejected

  /** The component's upload state. `inFlight` counts the requests sent
      whose promise has not settled. */
  datatype UploadState = UploadState(file: Option<string>, loading: bool, results: Option<Response>, inFlight: nat)

  const Start := UploadState(None, false, None, 0)

  /** `disabled={!file || loading}`, negated: the button works only with a
      file chosen and no request loading, and then a click sends exactly one
      request. */
  predicate ButtonEnabled(s: UploadState): (b: bool)
    ensures b ==> s.file.Some? && HandleFileUpload(s).inFlight == s.inFlight + 1
    ensures s.loading || s.file.None? ==> !b
  {
    s.file.Some? && !s.loading
  }

  /** The synchronous part of `handleFileUpload`: nothing without a file;
      otherwise `loading` is set and one request is sent. */
  function HandleFileUpload(s: UploadState): (t: UploadState)
    ensures s.file.None? ==> t == s
    ensures s.file.Some? ==> t.loading && t.inFlight == s.inFlight + 1
    ensures t.results == s.results && t.file == s.file
  {
    if s.file.None? then s else s.(loading := true, inFlight := s.inFlight + 1)
  }

  /** The settling of one request: the response replaces the results on
      success, the results stay on failure, and `loading` is cleared either
      way. */
  function Settle(s: UploadState, o: Outcome): (t: UploadState)
    requires s.inFlight > 0
    ensures !t.loading && t.inFlight == s.inFlight - 1 && t.file == s.file
    ensures o.Responded? ==> t.results == Some(o.body)
    ensures o.Rejected? ==> t.results == s.results
  {
    var t := s.(loading := false, inFlight := s.inFlight - 1);
    if o.Responded? then t.(results := Some(o.body)) else t
  }

  datatype UploadEvent = ChooseFile(f: Option<string>) | Click | Completes(o: Outcome)

  /** One user or network event. Choosing a file changes only the file. A
      click sends a request exactly when the button is enabled and never
      touches the file or the results. A completion settles the request in
      flight, and one with nothing in flight is ignored. */
  function Next(s: UploadState, e: UploadEvent): (t: UploadState)
    ensures e.ChooseFile? ==> t == s.(file := e.f)
    ensures e.Click? ==> (t.inFlight == s.inFlight + 1 <==> ButtonEnabled(s))
    ensures e.Click? && !ButtonEnabled(s) ==> t == s
    ensures e.Click? ==> t.file == s.file && t.results == s.results
    ensures e.Completes? && s.inFlight > 0 ==> !t.loading && t.inFlight == s.inFlight - 1
    ensures e.Completes? && s.inFlight == 0 ==> t == s
  {
    match e
    case ChooseFile(f) => s.(file := f)
    case Click => if ButtonEnabled(s) then HandleFileUpload(s) else s
    case Completes(o) => if s.inFlight > 0 then Settle(s, o) else s
  }

  /** At most one request is outstanding, and `loading` says whether one
      is. */
  predicate Inv(s: UploadState)
  {
    s.inFlight <= 1 && (s.loading <==> s.inFlight == 1)
  }

  /** Each event keeps the invariant; a click while loading sends nothing. */
  lemma NextKeepsInv(s: UploadState, e: UploadEvent)
    requires Inv(s)
    ensures Inv(Next(s, e))
    ensures e.Click? && s.loading ==> Next(s, e) == s
  {
  }

  function Run(s: UploadState, es: seq<UploadEvent>): UploadState
    decreases |es|
  {
    if |es| == 0 then s else Run(Next(s, es[0]), es[1..])
  }

  /** From the initial state, no sequence of events ever has two requests
      outstanding. */
  lemma {:induction false} RunKeepsInv(s: UploadState, es: seq<UploadEvent>)
    requires Inv(s)
    ensures Inv(Run(s, es))
    decreases |es|
  {
    if |es| > 0 {
      NextKeepsInv(s, es[0]);
      RunKeepsInv(Next(s, es[0]), es[1..]);
    }
  }

  /** From a fresh component, whatever the user clicks and whenever the
      requests settle, at most one analysis request is ever outstanding. */
  lemma AtMostOneRequest(es: seq<UploadEvent>)
    ensures Run(Start, es).inFlight <= 1
    ensures Run(Start, es).loading <==> Run(Start, es).inFlight == 1
  {
    RunKeepsInv(Start, es);
  }

  /** After the outstanding request settles, whatever its outcome, the
      button is enabled again exactly when a file is chosen; a failure
      leaves the previous results untouched. */
  lemma SettleIsResubmittable(s: UploadState, o: Outcome)
    requires Inv(s) && s.inFlight > 0
    ensures var t := Next(s, Completes(o));
      && Inv(t)
      && (ButtonEnabled(t) <==> s.file.Some?)
      && (o.Rejected? ==> t.results == s.results)
  {
  }

  /** A model exception on the backend is answered with a successful
      `{'error': ...}` body, so it replaces any earlier report and leaves
      nothing to chart. */
  lemma BackendErrorReplacesReport(s: UploadState, msg: string)
    requires s.inFlight > 0
    ensures var t := Settle(s, Responded(Error(msg)));
      t.results == Some(Error(msg)) && ChartData(t.results) == []
  {
  }

  /** `toUpperCase` on one ASCII character: a lower-case letter becomes its
      upper-case partner, 32 code points down; every other character is
      kept. */
  function UpperChar(c: char): (u: char)
    ensures !('a' <= u <= 'z')
    ensures 'a' <= c <= 'z' ==> u as int == c as int - 32 && 'A' <= u <= 'Z'
    ensures !('a' <= c <= 'z') ==> u == c
  {
    if 'a' <= c <= 'z' then (c as int - 32) as char else c
  }

  /** `tab.charAt(0).toUpperCase() + tab.slice(1)`. */
  function Capitalize(s: string): (r: string)
    ensures |r| == |s|
    ensures |s| > 0 ==> r[0] == UpperChar(s[0]) && r[1..] == s[1..]
  {
    if |s| == 0 then "" else [UpperChar(s[0])] + s[1..]
  }

  /** Capitalising twice is capitalising once. */
  lemma CapitalizeIdempotent(s: string)
    ensures Capitalize(Capitalize(s)) == Capitalize(s)
  {
  }

  const Tabs: seq<string> := ["metrics", "transcription", "charts"]

  lemma TabLabels()
    ensures Capitalize(Tabs[0]) == "Metrics"
    ensures Capitalize(Tabs[1]) == "Transcription"
    ensures Capitalize(Tabs[2]) == "Charts"
  {
  }
}
